=== FILE: README.md ===
# Saved Content Viewer — session model

A Dafny model of the session-state machine of the Saved Content Viewer, a
single-page dashboard that logs a user into YouTube and Reddit by OAuth and
shows their liked videos and saved posts, refreshed automatically at most once a
minute as long as the YouTube fetch does not raise (see "## Findings").

The dashboard keeps per-session keys (reset on every page load) (`youtube_credentials`,
`youtube_api`, `youtube_videos`, `reddit`, `reddit_posts`, `last_sync_time`,
`sync_interval`, `oauth_state`) and re-executes its script on every
interaction. The model turns each step of that script into a pure function
on an immutable `Session` record:

- `wrappers.dfy` — `Option`, for Python's `None` and for absent payload fields.
- `content.dfy` (module `Content`) — the two normalisation loops: YouTube
  `items` to `{title, url, thumbnail}` with `url` built by concatenation,
  and Reddit saved things filtered to those with a title on a page of 10.
- `session.dfy` (module `Session`) — the session record, its initial value,
  `sync_content`, both OAuth callbacks, the top of a render pass, the login
  link, "Sync Now" and the two logout buttons.
- `properties.dfy` (module `SessionProperties`) — properties of several
  steps: one sync per interval, "Sync Now" bypassing the gate, callbacks not
  replayed, logout followed by sync, and the login invariant over any
  sequence of events.
- `findings.dfy` (module `SyncFinding`) — a raising YouTube fetch that keeps
  the sync gate open, and the corrected sync that catches every failure.

The clock (`now`, whole seconds), the vendor answers (`Vendor`), the
redirect's query parameters (`Query`) and the success of the token exchange
and of the Reddit authorisation are arguments. A step ends as `Continue`
(the script goes on), `Rerun` (the script called `st.rerun`) or `Raised` (an
exception escaped); the session keeps every assignment made before the end.

Error paths, as the code has them:

- Both tabs tell the user that an empty list means "none found or an error
  occurred" (Main.py:189, 203), and the Reddit fetch does catch every
  exception (Main.py:93). The YouTube fetch catches only `HttpError`
  (Main.py:77). Any other request failure, and an item lacking `id`, its
  title or its default thumbnail, raises out of `sync_content` before any
  assignment. The sync time then does not advance and nothing is replaced.
- A YouTube redirect that carries `code` and `state` before any login link
  has stored `oauth_state` raises on the missing key. A failed token
  exchange also raises. A mismatched state is silently ignored.
- A Reddit redirect always carries a `state` (Main.py:122), so the YouTube
  handler sees it first. It raises when no token is stored, and the Reddit
  handler never runs in that pass.
- The Reddit callback runs its sync inside its `try`. An exception from that
  sync is reported as a failed login, yet the client has already been
  stored and the query cleared.

## Model

| member | source | states |
|---|---|---|
| Content.WatchUrl | Main.py:73 | the watch URL is the fixed prefix followed by the id, and the id can be read back from it |
| Content.WatchUrlInjective | Main.py:73 | distinct video ids never share a watch URL |
| Content.NormaliseVideos | Main.py:70-76 | when every item has id, title and thumbnail the result keeps length and order, with each title and thumbnail copied and url = prefix + id; otherwise the loop raises |
| Content.FetchVideos | Main.py:62-79 | an HTTP error yields the empty list; an absent `items` key yields the empty list; an exception escapes exactly when the request fails otherwise or an item is incomplete; a response with items yields exactly their normalisation |
| Content.Page | Main.py:85 | the listing yields a prefix of the saved listing: all of it when it has at most 10 things, exactly 10 otherwise |
| Content.CollectPosts | Main.py:84-92 | the filter loop yields no more posts than things, and none when there are only comments |
| Content.SubmissionIndices | Main.py:86 | reference filter: the increasing positions of exactly the things that have a title |
| Content.CollectPostsIsTitledSubsequence | Main.py:84-92 | the filter loop yields, in order, the post of each titled thing the reference filter selects and nothing else |
| Content.NormalisePosts | Main.py:84-92 | at most 10 posts come back |
| Content.NormalisePostsSpec | Main.py:85-91 | the posts are the in-order subsequence of the titled things among the first 10 saved things, each mapped to title, permalink and subreddit; every such thing appears |
| Content.FetchPosts | Main.py:81-95 | any error yields the empty list; a listing yields its normalised posts: in order, the post of each titled thing among the first 10, none missing |
| Session.Initial | Main.py:15-30 | nobody is logged in, no token is pending, the invariant holds, and the first sync at any time of at least 60 is due |
| Session.SyncContent | Main.py:155-163 | a shut gate changes nothing; an open gate stamps `now` whatever the fetches return, replaces the videos only while a YouTube client exists and the posts only while a Reddit client exists; logins never change; an escaping YouTube exception leaves the session untouched; the invariant is kept |
| Session.HandleYouTubeCallback | Main.py:125-135 | credentials and client are minted from `code` only when `code` and `state` are both present, `state` equals the stored token and the exchange succeeds; then the query is cleared and the post-login sync runs: when due it stamps `now` and refetches videos and, if logged in, posts; an escaping YouTube failure raises with only the new credential and client stored; when not due the pass reruns with only the new credential and client stored; a missing stored token or a failed exchange raises with session and query unchanged; a mismatched state changes nothing; the Reddit login is untouched; the invariant is kept |
| Session.HandleRedditCallback | Main.py:137-153 | any `code` with a successful authorisation stores a client for that code, clears the query and runs the post-login sync: when due it stamps `now` and refetches the posts and, if logged in, the videos; an escaping YouTube failure in that sync is caught, leaving only the new client; when not due the lists and time stay; without code and authorisation the step is a no-op; no exception escapes; the YouTube login is untouched; the invariant is kept |
| Session.StartPass | Main.py:168-173 | a request without `code` only runs the sync; a `code` and `state` with no stored token raise before the Reddit handler runs; a matching YouTube redirect whose exchange fails raises with nothing changed; a matching one whose exchange succeeds logs into YouTube only and ends the pass with a rerun or an exception; any other `code` that Reddit authorises, without a state or with one that differs from the stored token, logs into Reddit; one that Reddit refuses keeps the query and only runs the sync; the query is cleared on either login; the stored token is untouched; the invariant is kept |
| Session.ShowYouTubeLogin | Main.py:105-109 | while logged out the tab stores a fresh anti-forgery token and nothing else; while logged in nothing changes |
| Session.SyncNow | Main.py:208-211 | with `now` at least one interval past zero the sync always runs: it refetches every logged-in provider and stamps `now`, unless the YouTube fetch raises, which leaves only the zeroed time; logins never change; the invariant is kept |
| Session.LogoutYouTube | Main.py:215-219 | a press while logged in clears credentials, client and videos and reruns; Reddit fields, sync time and interval are untouched; otherwise nothing changes |
| Session.LogoutReddit | Main.py:220-223 | a press while logged in clears the client and the posts and reruns; YouTube fields, sync time and interval are untouched; otherwise nothing changes |
| SessionProperties.AtMostOneSyncPerInterval | Main.py:158-163 | of two gate evaluations less than one interval apart, when the first one completed its sync the second changes nothing whatever the vendors answer (a first sync that raised is the finding below) |
| SessionProperties.SyncNowBypassesInterval | Main.py:208-210 | five seconds after a sync the gate is shut, yet "Sync Now" refetches every logged-in provider and stamps the time |
| SessionProperties.SyncNowThenSyncIsQuiet | Main.py:158-163 | after a "Sync Now" that completed, a sync at the same time performs no fetch |
| SessionProperties.YouTubeCallbackNotReplayed | Main.py:133 | after an accepted YouTube redirect neither callback reacts to the cleared query |
| SessionProperties.RedditCallbackIgnoresState | Main.py:139 | a code with a state that does not match the stored token logs into Reddit while YouTube rejects it |
| SessionProperties.LogoutYouTubeThenSync | Main.py:216-218 | no sync after a YouTube logout brings videos back |
| SessionProperties.LogoutRedditThenSync | Main.py:221-222 | no sync after a Reddit logout brings posts back |
| SessionProperties.FreshSessionRedirectRaises | Main.py:122-128 | in a fresh session, which has no stored token, a redirect carrying `code` and `state` raises before either handler can log in, leaving session and query unchanged |
| SessionProperties.ApplyKeepsInv | Main.py:125-222 | each kind of event keeps the login invariant |
| SessionProperties.ReplayKeepsInv | Main.py:125-222 | any sequence of events keeps the login invariant |
| SyncFinding.RaisingSyncRepeats | Main.py:157-163 | as written: once a sync raises, every later evaluation is due, and while the request keeps failing the same way it raises again and the time is never stamped |
| SyncFinding.RaisingSyncRecovers | Main.py:157-163 | as written: after a raising sync, the first later pass whose YouTube fetch does not raise syncs and stamps its time |
| SyncFinding.RaisingSyncNowLeavesZero | Main.py:208-211 | as written: a "Sync Now" whose YouTube fetch raises leaves the sync time at zero, so every later pass is due |
| SyncFinding.RaisingSyncExample | Main.py:64-79 | as written: a logged-in session whose liked-videos request fails without an HTTP status raises at time 100 and again at time 1000 |
| SyncFinding.Caught | Main.py:77-79 | corrected: every fetch failure is reported and yields the empty list, and a successful answer is unchanged |
| SyncFinding.SyncContentCaught | Main.py:155-163 | corrected: an open gate always stamps `now`, empties the videos on any YouTube failure and agrees with the code whenever the code does not raise; a shut gate changes nothing; the invariant is kept |
| SyncFinding.CaughtSyncAtMostOncePerInterval | Main.py:158-163 | corrected: of two evaluations less than one interval apart, the second never fetches, whatever the first one's answers |
| SessionProperties.ReachableSatisfiesInv | Main.py:15-222 | in every session reachable from the initial one, videos are present only with client and credentials, and posts only with a Reddit client |

## Findings

| source | as written | input that shows it | evidently intended | confidence | as-written member | corrected member |
|---|---|---|---|---|---|---|
| Main.py:77-79 | only `HttpError` is caught, so any other failure of the liked-videos fetch escapes `sync_content` before line 163 stamps the time; while the request keeps failing the same way, every later pass fetches and raises again | a logged-in session whose request fails with a connection reset, or whose response has an item without a thumbnail | every failure is reported and yields the empty list, as the tab's "No saved videos found or an error occurred." says, and the time is stamped, so the next fetch waits an interval | medium, not executed | SyncFinding.RaisingSyncRepeats | SyncFinding.SyncContentCaught |

The transitions in `Session` keep the behaviour as written; only the rows
marked "corrected" in the table above state the intended behaviour instead. The corrected sync is stated beside
them, with its property proved in `CaughtSyncAtMostOncePerInterval`.

## Left out

- Rendering: page configuration, titles, tabs, headers, images, markdown, the "Last synced" text and `time.ctime`; they only read the session.
- HandleYouTubeCallback: building the API client (`get_youtube_api`, Main.py:132) is taken never to fail; if it raised, the credential would already be stored without a client.
- Session identity: every page load, including the provider's redirect back to the app, starts a fresh session that runs the initialisation again and has no stored token. `Replay` lets a redirect reach the session that generated the login link, so it reaches more sessions than the program can; `FreshSessionRedirectRaises` states what a redirect does in a fresh session.
- Rerun control: `st.rerun` is recorded as the `Rerun` outcome; the automatic rerun request at line 227 and the framework's scheduling of passes are not modelled.
- Secrets loading (lines 41-48) and the temporary client-secret file (lines 51-54 and 99-112): configuration and file I/O.
- OAuth libraries: the installed-app flow, `fetch_token`, `praw.Reddit` and `authorize` are reduced to the booleans `exchangeOk` and `authorizeOk`; the credential and clients are records of the code they were obtained with. The stored flow object (`oauth_flow`) is represented only by its token `oauthState`.
- `reddit_login` (lines 114-123) writes nothing to the session; its link with a fixed state is not modelled.
- The `reddit_access_token` key (lines 17-18) is set to `None` and never read or written again.
- Vendor requests: the videos-list call and the saved-listing iteration are supplied as `Vendor` answers; one answer per provider per pass. The YouTube page size of 10 is enforced by the API and is not a cap in the model; the Reddit page of 10 is.
- An exception in the middle of the Reddit listing is the same as a failed listing: the fetch yields the empty list either way.
- Time: `time.time()` returns a float; the model uses whole seconds supplied by the caller, one value per pass.
- Truthiness: credentials and client objects are taken to be truthy, as the vendor libraries make them.

=== FILE: content.dfy ===
/** Normalisation of the two vendor payloads into the item shapes the
    dashboard keeps in its session: liked YouTube videos become
    `{title, url, thumbnail}`, saved Reddit submissions become
    `{title, url, subreddit}`. */
module Content {
  import opened Wrappers

  /** Every watch URL is this prefix followed by the video id. */
  const WatchUrlPrefix: string := "https://www.youtube.com/watch?v="

  /** Number of saved Reddit things the listing is asked for. */
  const RedditPageSize: nat := 10

  // ---------------------------------------------------------------- YouTube

  /** A normalised liked video. */
  datatype Video = Video(title: string, url: string, thumbnail: string)

  /** One entry of the `items` array of a videos-list response. Each field is
      `None` when the payload lacks it (`id`, `snippet.title`,
      `snippet.thumbnails.default.url`). */
  datatype VideoResource = VideoResource(id: Option<string>, title: Option<string>, thumbnail: Option<string>)

  /** What the videos-list request answers: an HTTP error, any other
      failure of the request (a transport error, a failed credential
      refresh), or a response whose `items` key may be absent. */
  datatype YouTubeReply =
    | HttpError(message: string)
    | RequestFailure(message: string)
    | Response(items: Option<seq<VideoResource>>)

  /** The inverse of `WatchUrl`: the video id a watch URL points at. */
  function VideoIdOf(url: string): (id: Option<string>)
  {
    if |WatchUrlPrefix| <= |url| && url[..|WatchUrlPrefix|] == WatchUrlPrefix
    then Some(url[|WatchUrlPrefix|..])
    else None
  }

  /** The watch URL of a video, built by concatenation. */
  function WatchUrl(id: string): (url: string)
    ensures VideoIdOf(url) == Some(id)
    ensures |url| == |WatchUrlPrefix| + |id|
  {
    assert (WatchUrlPrefix + id)[..|WatchUrlPrefix|] == WatchUrlPrefix;
    WatchUrlPrefix + id
  }

  /** Two different ids never share a watch URL. */
  lemma WatchUrlInjective(a: string, b: string)
    requires WatchUrl(a) == WatchUrl(b)
    ensures a == b
  {
    assert VideoIdOf(WatchUrl(a)) == Some(a);
  }

  /** An item the mapping loop can read without a missing-key error. */
  predicate Complete(v: VideoResource)
  {
    v.id.Some? && v.title.Some? && v.thumbnail.Some?
  }

  function ToVideo(v: VideoResource): (video: Video)
    requires Complete(v)
  {
    Video(v.title.value, WatchUrl(v.id.value), v.thumbnail.value)
  }

  /** The mapping loop over the response items. `None` stands for the
      missing-key error the loop raises on the first incomplete item; the
      partial list is then lost. */
  function NormaliseVideos(items: seq<VideoResource>): (r: Option<seq<Video>>)
    ensures r.Some? <==> forall i :: 0 <= i < |items| ==> Complete(items[i])
    ensures r.Some? ==> |r.value| == |items|
    ensures r.Some? ==> forall i :: 0 <= i < |items| ==>
      && r.value[i].title == items[i].title.value
      && r.value[i].url == WatchUrlPrefix + items[i].id.value
      && r.value[i].thumbnail == items[i].thumbnail.value
  {
    if items == [] then Some([])
    else if !Complete(items[0]) then None
    else match NormaliseVideos(items[1..])
      case None => None
      case Some(rest) => Some([ToVideo(items[0])] + rest)
  }

  /** The liked-videos fetch. An HTTP error is reported and yields the empty
      list; a missing `items` key reads as no items; `None` is an exception
      that the fetch does not catch: any other request failure, or an
      incomplete item. */
  function FetchVideos(reply: YouTubeReply): (r: Option<seq<Video>>)
    ensures reply.HttpError? ==> r == Some([])
    ensures reply == Response(None) ==> r == Some([])
    ensures r.None? <==>
      || reply.RequestFailure?
      || (reply.Response? && reply.items.Some? &&
          exists i :: 0 <= i < |reply.items.value| && !Complete(reply.items.value[i]))
    ensures reply.Response? && reply.items.Some? ==> r == NormaliseVideos(reply.items.value)
  {
    match reply
    case HttpError(_) => Some([])
    case RequestFailure(_) => None
    case Response(None) => Some([])
    case Response(Some(items)) => NormaliseVideos(items)
  }

  // ----------------------------------------------------------------- Reddit

  /** A normalised saved post; `url` is the permalink path. */
  datatype Post = Post(title: string, url: string, subreddit: string)

  /** One thing of the saved listing. Only submissions carry a title. */
  datatype SavedThing =
    | Submission(title: string, permalink: string, subreddit: string)
    | Comment(body: string)

  /** What iterating the saved listing produces: every thing the user saved,
      in listing order, or an exception. */
  datatype RedditReply =
    | RedditFailure(message: string)
    | Saved(listing: seq<SavedThing>)

  function PostOf(t: SavedThing): (post: Post)
    requires t.Submission?
  {
    Post(t.title, t.permalink, t.subreddit)
  }

  /** The things the listing yields when asked for one page. */
  function Page(listing: seq<SavedThing>): (page: seq<SavedThing>)
    ensures |page| <= RedditPageSize
    ensures page <= listing
    ensures |listing| <= RedditPageSize ==> page == listing
    ensures |listing| > RedditPageSize ==> |page| == RedditPageSize
  {
    if |listing| <= RedditPageSize then listing else listing[..RedditPageSize]
  }

  /** The filtering loop: keep the things that have a title. */
  function CollectPosts(things: seq<SavedThing>): (posts: seq<Post>)
    ensures |posts| <= |things|
    ensures (forall i :: 0 <= i < |things| ==> things[i].Comment?) ==> posts == []
  {
    if things == [] then []
    else match things[0]
      case Submission(_, _, _) => [PostOf(things[0])] + CollectPosts(things[1..])
      case Comment(_) => CollectPosts(things[1..])
  }

  /** Every position in `xs`, moved one place to the right. */
  function Shift(xs: seq<nat>): (ys: seq<nat>)
    ensures |ys| == |xs|
    ensures forall k :: 0 <= k < |xs| ==> ys[k] == xs[k] + 1
  {
    seq(|xs|, k requires 0 <= k < |xs| => xs[k] + 1)
  }

  /** Each entry of `idx` is the position of a submission in `things`. */
  predicate AtSubmissions(idx: seq<nat>, things: seq<SavedThing>)
  {
    forall k :: 0 <= k < |idx| ==> idx[k] < |things| && things[idx[k]].Submission?
  }

  predicate Increasing(idx: seq<nat>)
  {
    forall k, l :: 0 <= k < l < |idx| ==> idx[k] < idx[l]
  }

  /** Every submission of `things` has its position in `idx`. */
  predicate CoversSubmissions(idx: seq<nat>, things: seq<SavedThing>)
  {
    forall i :: 0 <= i < |things| && things[i].Submission? ==> i in idx
  }

  /** Reference definition of the filter: the positions, in increasing order,
      of exactly the submissions among `things`. */
  function SubmissionIndices(things: seq<SavedThing>): (idx: seq<nat>)
    ensures AtSubmissions(idx, things)
    ensures Increasing(idx)
    ensures CoversSubmissions(idx, things)
  {
    if things == [] then []
    else
      var rest := SubmissionIndices(things[1..]);
      ShiftAtSubmissions(things, rest);
      ShiftIncreasing(rest);
      ShiftCovers(things, rest);
      if things[0].Submission? then [0] + Shift(rest) else Shift(rest)
  }

  lemma ShiftAtSubmissions(things: seq<SavedThing>, rest: seq<nat>)
    requires things != [] && AtSubmissions(rest, things[1..])
    ensures AtSubmissions(Shift(rest), things)
    ensures forall k :: 0 <= k < |rest| ==> Shift(rest)[k] > 0
    ensures things[0].Submission? ==> AtSubmissions([0] + Shift(rest), things)
  {
    var shifted := Shift(rest);
    forall k | 0 <= k < |shifted|
      ensures shifted[k] < |things| && things[shifted[k]].Submission?
    {
      assert things[1..][rest[k]] == things[shifted[k]];
    }
  }

  lemma ShiftIncreasing(rest: seq<nat>)
    requires Increasing(rest)
    ensures Increasing(Shift(rest))
    ensures Increasing([0] + Shift(rest))
  {
    var shifted := Shift(rest);
    var prefixed := [0] + shifted;
    forall k, l | 0 <= k < l < |prefixed|
      ensures prefixed[k] < prefixed[l]
    {
      assert prefixed[l] == shifted[l - 1];
      if k > 0 {
        assert prefixed[k] == shifted[k - 1];
      }
    }
  }

  lemma ShiftCovers(things: seq<SavedThing>, rest: seq<nat>)
    requires things != [] && CoversSubmissions(rest, things[1..])
    ensures forall i :: 1 <= i < |things| && things[i].Submission? ==> i in Shift(rest)
    ensures things[0].Submission? ==> CoversSubmissions([0] + Shift(rest), things)
    ensures things[0].Comment? ==> CoversSubmissions(Shift(rest), things)
  {
    var shifted := Shift(rest);
    forall i | 1 <= i < |things| && things[i].Submission?
      ensures i in shifted
    {
      assert things[1..][i - 1] == things[i];
      var k :| 0 <= k < |rest| && rest[k] == i - 1;
      assert shifted[k] == i;
    }
  }

  /** `posts` holds, in order, the post of the thing at each position of `idx`. */
  predicate PostsAt(posts: seq<Post>, things: seq<SavedThing>, idx: seq<nat>)
  {
    && |posts| == |idx|
    && forall k :: 0 <= k < |idx| ==>
         idx[k] < |things| && things[idx[k]].Submission? && posts[k] == PostOf(things[idx[k]])
  }

  /** The filtering loop produces, in order, the post of each submission the
      reference definition selects, and nothing else. */
  lemma {:induction false} CollectPostsIsTitledSubsequence(things: seq<SavedThing>)
    ensures PostsAt(CollectPosts(things), things, SubmissionIndices(things))
  {
    if things != [] {
      CollectPostsIsTitledSubsequence(things[1..]);
      var rest := SubmissionIndices(things[1..]);
      var posts := CollectPosts(things[1..]);
      var idx := SubmissionIndices(things);
      var all := CollectPosts(things);
      var d := if things[0].Submission? then 1 else 0;
      assert idx[d..] == Shift(rest);
      assert all[d..] == posts;
      forall k | d <= k < |all|
        ensures all[k] == PostOf(things[idx[k]])
      {
        assert all[k] == posts[k - d];
        assert idx[k] == rest[k - d] + 1;
        assert things[1..][rest[k - d]] == things[idx[k]];
      }
    }
  }

  /** The saved-posts normalisation: the posts of the submissions among the
      first page of the listing, in listing order. */
  function NormalisePosts(listing: seq<SavedThing>): (posts: seq<Post>)
    ensures |posts| <= RedditPageSize
  {
    CollectPosts(Page(listing))
  }

  /** The normalised posts are exactly the submissions among the first
      `RedditPageSize` saved things, each mapped to its post, in order; every
      such submission appears. */
  lemma NormalisePostsSpec(listing: seq<SavedThing>)
    ensures PostsAt(NormalisePosts(listing), listing, SubmissionIndices(Page(listing)))
    ensures Increasing(SubmissionIndices(Page(listing)))
    ensures forall k :: 0 <= k < |SubmissionIndices(Page(listing))| ==>
      SubmissionIndices(Page(listing))[k] < RedditPageSize
    ensures forall i :: 0 <= i < |listing| && i < RedditPageSize && listing[i].Submission? ==>
      i in SubmissionIndices(Page(listing))
  {
    var page := Page(listing);
    CollectPostsIsTitledSubsequence(page);
    assert forall i :: 0 <= i < |page| ==> page[i] == listing[i];
  }

  /** The saved-posts fetch: any exception is reported and yields the empty
      list. */
  function FetchPosts(reply: RedditReply): (posts: seq<Post>)
    ensures reply.RedditFailure? ==> posts == []
    ensures |posts| <= RedditPageSize
    ensures reply.Saved? ==> posts == NormalisePosts(reply.listing)
    ensures reply.Saved? ==> PostsAt(posts, reply.listing, SubmissionIndices(Page(reply.listing)))
    ensures reply.Saved? ==> forall i :: 0 <= i < |reply.listing| && i < RedditPageSize && reply.listing[i].Submission? ==>
      i in SubmissionIndices(Page(reply.listing))
  {
    match reply
    case RedditFailure(_) => []
    case Saved(listing) => NormalisePostsSpec(listing); NormalisePosts(listing)
  }
}

=== FILE: findings.dfy ===
/** The YouTube fetch catches only HTTP errors, while the tabs tell the user
    that an empty list means "none found or an error occurred". Any other
    failure escapes `sync_content` before the sync time is stamped, so the
    gate stays open and every later pass fetches and fails again. This
    module exhibits that behaviour of the code as written and states the
    evidently intended one, in which every fetch failure is reported and
    yields the empty list. */
module SyncFinding {
  import opened Wrappers
  import opened Content
  import opened Session

  /** As written: once the sync raises, every later evaluation is due and
      raises again with the same answer, so the time is never stamped. */
  lemma RaisingSyncRepeats(s: Session, now: int, later: int, vendor: Vendor)
    requires SyncContent(s, now, vendor).Raised?
    requires later >= now
    ensures Due(s, later)
    ensures SyncContent(s, later, vendor) == Raised(s)
  {
  }

  /** As written, the failure is not sticky: the first later pass whose
      YouTube fetch does not raise syncs and stamps its time. */
  lemma RaisingSyncRecovers(s: Session, now: int, later: int, v1: Vendor, v2: Vendor)
    requires SyncContent(s, now, v1).Raised?
    requires later >= now
    requires FetchVideos(v2.youtube).Some?
    ensures SyncContent(s, later, v2).Continue?
    ensures SyncContent(s, later, v2).session.lastSyncTime == later
  {
  }

  /** As written: a "Sync Now" whose YouTube fetch raises leaves the sync
      time at zero, so the next pass is due again. */
  lemma RaisingSyncNowLeavesZero(s: Session, now: int, later: int, vendor: Vendor)
    requires SyncNow(s, now, vendor).Raised?
    requires later >= s.syncInterval
    ensures SyncNow(s, now, vendor).session.lastSyncTime == 0
    ensures Due(SyncNow(s, now, vendor).session, later)
  {
  }

  /** A concrete instance: a logged-in session whose liked-videos request
      fails without an HTTP error status. */
  lemma RaisingSyncExample()
    ensures var c := Credentials("code");
      var s := Initial().(youtubeCredentials := Some(c), youtubeApi := Some(YouTubeClient(c)));
      var vendor := Vendor(RequestFailure("connection reset"), Saved([]));
      && Inv(s)
      && SyncContent(s, 100, vendor) == Raised(s)
      && SyncContent(s, 1000, vendor) == Raised(s)
  {
  }

  /** The intended fetch answer: every failure the code lets escape is
      reported like an HTTP error instead. */
  function Caught(reply: YouTubeReply): (caught: YouTubeReply)
    ensures FetchVideos(caught).Some?
    ensures FetchVideos(reply).Some? ==> FetchVideos(caught) == FetchVideos(reply)
    ensures FetchVideos(reply).None? ==> FetchVideos(caught) == Some([])
  {
    if FetchVideos(reply).Some? then reply else HttpError("request failed")
  }

  /** The intended `sync_content`: the same gate and replacements, with every
      YouTube fetch failure caught. */
  function SyncContentCaught(s: Session, now: int, vendor: Vendor): (t: Session)
    ensures SameLogins(s, t)
    ensures !Due(s, now) ==> t == s
    ensures Due(s, now) ==> t.lastSyncTime == now
    ensures SyncContent(s, now, vendor).Continue? ==> t == SyncContent(s, now, vendor).session
    ensures Due(s, now) && s.youtubeApi.Some? && FetchVideos(vendor.youtube).None? ==> t.youtubeVideos == []
    ensures Inv(s) ==> Inv(t)
  {
    SyncContent(s, now, vendor.(youtube := Caught(vendor.youtube))).session
  }

  /** Corrected: of two evaluations less than one interval apart, the second
      never fetches, whatever the vendors answered the first time. */
  lemma CaughtSyncAtMostOncePerInterval(s: Session, now1: int, now2: int, v1: Vendor, v2: Vendor)
    requires now1 <= now2 < now1 + s.syncInterval
    ensures var t := SyncContentCaught(s, now1, v1);
      Due(s, now1) ==> SyncContentCaught(t, now2, v2) == t
  {
  }
}

=== FILE: properties.dfy ===
/** Properties that relate several transitions of the session: the sync
    gate across evaluations, "Sync Now", callbacks that are not replayed,
    logout followed by sync, and the login invariant over any sequence of
    user-visible events. */
module SessionProperties {
  import opened Wrappers
  import opened Content
  import opened Session

  /** Two gate evaluations less than one interval apart: when the first one
      synced, the second leaves the session alone whatever the vendors
      answer. */
  lemma AtMostOneSyncPerInterval(s: Session, now1: int, now2: int, v1: Vendor, v2: Vendor)
    requires now1 <= now2 < now1 + s.syncInterval
    requires Due(s, now1) && SyncContent(s, now1, v1).Continue?
    ensures SyncContent(SyncContent(s, now1, v1).session, now2, v2) ==
      Continue(SyncContent(s, now1, v1).session)
  {
  }

  /** Five seconds after a sync, the automatic gate stays shut while "Sync
      Now" refetches every logged-in provider and restamps the time. */
  lemma SyncNowBypassesInterval(s: Session, now: int, vendor: Vendor)
    requires Inv(s)
    requires now == s.lastSyncTime + 5 && now >= SyncInterval
    requires s.youtubeApi.None? || FetchVideos(vendor.youtube).Some?
    ensures SyncContent(s, now, vendor) == Continue(s)
    ensures var t := SyncNow(s, now, vendor).session;
      && SyncNow(s, now, vendor).Rerun?
      && t.lastSyncTime == now
      && (s.youtubeApi.Some? ==> Some(t.youtubeVideos) == FetchVideos(vendor.youtube))
      && (s.reddit.Some? ==> t.redditPosts == FetchPosts(vendor.reddit))
  {
  }

  /** After "Sync Now", a gate evaluation at the same time performs no fetch. */
  lemma SyncNowThenSyncIsQuiet(s: Session, now: int, v1: Vendor, v2: Vendor)
    requires Inv(s) && now >= SyncInterval
    requires SyncNow(s, now, v1).Rerun?
    ensures SyncContent(SyncNow(s, now, v1).session, now, v2) == Continue(SyncNow(s, now, v1).session)
  {
  }

  /** An accepted YouTube redirect clears the query, so the callbacks of the
      next pass ignore it. */
  lemma YouTubeCallbackNotReplayed(s: Session, q: Query, ok1: bool, ok2: bool, now: int, vendor: Vendor)
    requires YouTubeRedirectMatches(s, q) && ok1
    ensures var h := HandleYouTubeCallback(s, q, ok1, now, vendor);
      && HandleYouTubeCallback(h.run.session, h.query, ok2, now, vendor) == Handled(Continue(h.run.session), h.query)
      && HandleRedditCallback(h.run.session, h.query, ok2, now, vendor) == Handled(Continue(h.run.session), h.query)
  {
  }

  /** The Reddit callback takes up a code whatever state accompanies it, even
      one that no login link of this session produced. */
  lemma RedditCallbackIgnoresState(s: Session, code: string, forged: string, now: int, vendor: Vendor)
    requires s.oauthState != Some(forged)
    ensures HandleRedditCallback(s, map["code" := code, "state" := forged], true, now, vendor).run.session.reddit
      == Some(RedditClient(code))
    ensures !YouTubeRedirectMatches(s, map["code" := code, "state" := forged])
  {
  }

  /** Once logged out of YouTube, no sync brings videos back. */
  lemma LogoutYouTubeThenSync(s: Session, now: int, vendor: Vendor)
    requires s.youtubeCredentials.Some?
    ensures SyncContent(LogoutYouTube(s, true).session, now, vendor).session.youtubeVideos == []
  {
  }

  /** Once logged out of Reddit, no sync brings posts back. */
  lemma LogoutRedditThenSync(s: Session, now: int, vendor: Vendor)
    requires s.reddit.Some?
    ensures SyncContent(LogoutReddit(s, true).session, now, vendor).session.redditPosts == []
  {
  }

  /** A page load starts a fresh session, which has no stored token. A
      redirect from either provider carries `code` and `state` (Reddit's
      state is fixed), so in a fresh session it raises before any handler
      can log in. */
  lemma FreshSessionRedirectRaises(code: string, state: string, exchangeOk: bool, authorizeOk: bool,
                                   now: int, vendor: Vendor)
    ensures var q := map["code" := code, "state" := state];
      StartPass(Initial(), q, exchangeOk, authorizeOk, now, vendor) == Handled(Raised(Initial()), q)
  {
  }

  /** What can happen to a session between two looks at it. */
  datatype Event =
    | PageRequest(query: Query, exchangeOk: bool, authorizeOk: bool, now: int, vendor: Vendor)
    | YouTubeTabShown(state: string)
    | SyncNowPressed(now: int, vendor: Vendor)
    | LogoutYouTubePressed
    | LogoutRedditPressed

  function Apply(s: Session, e: Event): (t: Session)
  {
    match e
    case PageRequest(q, exchangeOk, authorizeOk, now, vendor) =>
      StartPass(s, q, exchangeOk, authorizeOk, now, vendor).run.session
    case YouTubeTabShown(state) => ShowYouTubeLogin(s, state)
    case SyncNowPressed(now, vendor) => SyncNow(s, now, vendor).session
    case LogoutYouTubePressed => LogoutYouTube(s, true).session
    case LogoutRedditPressed => LogoutReddit(s, true).session
  }

  function Replay(s: Session, events: seq<Event>): (t: Session)
    decreases |events|
  {
    if events == [] then s else Replay(Apply(s, events[0]), events[1..])
  }

  /** Every event keeps the invariant. */
  lemma ApplyKeepsInv(s: Session, e: Event)
    requires Inv(s)
    ensures Inv(Apply(s, e))
  {
  }

  /** Any session the events can produce from the initial one has item lists
      only for logged-in providers. */
  lemma {:induction false} ReplayKeepsInv(s: Session, events: seq<Event>)
    requires Inv(s)
    ensures Inv(Replay(s, events))
    decreases |events|
  {
    if events != [] {
      ApplyKeepsInv(s, events[0]);
      ReplayKeepsInv(Apply(s, events[0]), events[1..]);
    }
  }

  /** The invariant holds of every reachable session. */
  lemma ReachableSatisfiesInv(events: seq<Event>)
    ensures var s := Replay(Initial(), events);
      && (s.youtubeVideos != [] ==> s.youtubeApi.Some? && s.youtubeCredentials.Some?)
      && (s.redditPosts != [] ==> s.reddit.Some?)
  {
    ReplayKeepsInv(Initial(), events);
  }
}

=== FILE: session.dfy ===
/** The per-browser session of the dashboard and the transitions that one
    render pass applies to it: the OAuth callbacks, the time-gated sync, the
    "Sync Now" and logout controls. The clock, the vendor answers and the
    redirect's query parameters are arguments. */
module Session {
  import opened Wrappers
  import opened Content

  /** Seconds between two automatic syncs. */
  const SyncInterval: int := 60

  /** The credential the token endpoint mints for an authorization code. */
  datatype Credentials = Credentials(code: string)

  /** A YouTube Data API client built on a credential. */
  datatype YouTubeClient = YouTubeClient(credentials: Credentials)

  /** A Reddit client authorised with an authorization code. */
  datatype RedditClient = RedditClient(code: string)

  /** The session keys the script reads and writes. `oauthState` is the
      anti-forgery token of the pending YouTube login, `None` while the key
      has never been set. Times are whole seconds. */
  datatype Session = Session(
    youtubeCredentials: Option<Credentials>,
    youtubeApi: Option<YouTubeClient>,
    youtubeVideos: seq<Video>,
    reddit: Option<RedditClient>,
    redditPosts: seq<Post>,
    lastSyncTime: int,
    syncInterval: int,
    oauthState: Option<string>)

  /** The query parameters of the page request. */
  type Query = map<string, string>

  /** What the two vendor APIs answer if asked during this pass. */
  datatype Vendor = Vendor(youtube: YouTubeReply, reddit: RedditReply)

  /** How a step of the pass ends: the script goes on, asks for a rerun, or
      an exception escapes and ends the pass. The session keeps every
      assignment made before the step ended. */
  datatype Run =
    | Continue(session: Session)
    | Rerun(session: Session)
    | Raised(session: Session)

  /** A callback handler's outcome and the query parameters it leaves. */
  datatype Handled = Handled(run: Run, query: Query)

  /** Item lists are non-empty only while their provider is logged in; the
      YouTube client exists exactly when its credential does and is built on
      it; the interval is never changed. */
  predicate Inv(s: Session)
  {
    && (s.youtubeVideos != [] ==> s.youtubeApi.Some?)
    && (s.youtubeApi.Some? <==> s.youtubeCredentials.Some?)
    && (s.youtubeApi.Some? ==> s.youtubeApi.value.credentials == s.youtubeCredentials.value)
    && (s.redditPosts != [] ==> s.reddit.Some?)
    && s.syncInterval == SyncInterval
  }

  /** The sessions agree on everything but the two item lists and the sync time. */
  predicate SameLogins(s: Session, t: Session)
  {
    && t.youtubeCredentials == s.youtubeCredentials
    && t.youtubeApi == s.youtubeApi
    && t.reddit == s.reddit
    && t.syncInterval == s.syncInterval
    && t.oauthState == s.oauthState
  }

  /** The sync gate: at least one interval has passed since the last sync. */
  predicate Due(s: Session, now: int)
  {
    now - s.lastSyncTime >= s.syncInterval
  }

  /** The session keys as the first pass of a session sets them. */
  function Initial(): (s: Session)
    ensures Inv(s)
    ensures s.youtubeCredentials.None? && s.reddit.None? && s.oauthState.None?
    ensures forall now :: now >= SyncInterval ==> Due(s, now)
  {
    Session(None, None, [], None, [], 0, SyncInterval, None)
  }

  /** `sync_content`: when the gate is open, refetch every provider that has
      a client and stamp the sync time; a fetch error leaves an empty list,
      but an exception the YouTube fetch does not catch ends the pass before
      anything is assigned. */
  function SyncContent(s: Session, now: int, vendor: Vendor): (r: Run)
    ensures r.Continue? || r.Raised?
    ensures SameLogins(s, r.session)
    ensures !Due(s, now) ==> r == Continue(s)
    ensures r.Raised? <==> Due(s, now) && s.youtubeApi.Some? && FetchVideos(vendor.youtube).None?
    ensures r.Raised? ==> r.session == s
    ensures Due(s, now) && r.Continue? ==> r.session.lastSyncTime == now
    ensures s.youtubeApi.None? ==> r.session.youtubeVideos == s.youtubeVideos
    ensures s.reddit.None? ==> r.session.redditPosts == s.redditPosts
    ensures Due(s, now) && r.Continue? && s.youtubeApi.Some? ==>
      Some(r.session.youtubeVideos) == FetchVideos(vendor.youtube)
    ensures Due(s, now) && r.Continue? && s.reddit.Some? ==>
      r.session.redditPosts == FetchPosts(vendor.reddit)
    ensures Inv(s) ==> Inv(r.session)
  {
    if !Due(s, now) then Continue(s)
    else
      var videos := if s.youtubeApi.Some? then FetchVideos(vendor.youtube) else Some(s.youtubeVideos);
      if videos.None? then Raised(s)
      else
        var posts := if s.reddit.Some? then FetchPosts(vendor.reddit) else s.redditPosts;
        Continue(s.(youtubeVideos := videos.value, redditPosts := posts, lastSyncTime := now))
  }

  /** The YouTube redirect is taken up only when it carries a code and a
      state equal to the stored anti-forgery token. */
  predicate YouTubeRedirectMatches(s: Session, q: Query)
  {
    "code" in q && "state" in q && s.oauthState == Some(q["state"])
  }

  /** `handle_youtube_callback`. `exchangeOk` says whether the token
      endpoint accepts the code. Reading the token before any login link was
      generated, and a failed exchange, raise; a mismatched state is
      ignored. On success the credential and client are stored, the query is
      cleared, a sync runs and the pass reruns. */
  function HandleYouTubeCallback(s: Session, q: Query, exchangeOk: bool, now: int, vendor: Vendor): (r: Handled)
    ensures !(YouTubeRedirectMatches(s, q) && exchangeOk) ==> r.run.session == s && r.query == q
    ensures !("code" in q && "state" in q) ==> r.run == Continue(s)
    ensures "code" in q && "state" in q && s.oauthState.Some? && s.oauthState.value != q["state"] ==>
      r.run == Continue(s)
    ensures r.run.Raised? && !YouTubeRedirectMatches(s, q) ==> "code" in q && "state" in q && s.oauthState.None?
    ensures "code" in q && "state" in q && s.oauthState.None? ==> r == Handled(Raised(s), q)
    ensures YouTubeRedirectMatches(s, q) && !exchangeOk ==> r == Handled(Raised(s), q)
    ensures YouTubeRedirectMatches(s, q) && exchangeOk ==>
      && r.query == map[]
      && r.run.session.youtubeCredentials == Some(Credentials(q["code"]))
      && r.run.session.youtubeApi == Some(YouTubeClient(Credentials(q["code"])))
      && r.run.session.reddit == s.reddit
      && (r.run.Rerun? || r.run.Raised?)
    ensures YouTubeRedirectMatches(s, q) && exchangeOk && Due(s, now) ==>
      && (r.run.Rerun? <==> FetchVideos(vendor.youtube).Some?)
      && (r.run.Rerun? ==>
            && r.run.session.lastSyncTime == now
            && Some(r.run.session.youtubeVideos) == FetchVideos(vendor.youtube)
            && (s.reddit.Some? ==> r.run.session.redditPosts == FetchPosts(vendor.reddit)))
    ensures YouTubeRedirectMatches(s, q) && exchangeOk && !Due(s, now) ==>
      r.run == Rerun(s.(youtubeCredentials := Some(Credentials(q["code"])),
                        youtubeApi := Some(YouTubeClient(Credentials(q["code"])))))
    ensures YouTubeRedirectMatches(s, q) && exchangeOk && r.run.Raised? ==>
      r.run.session == s.(youtubeCredentials := Some(Credentials(q["code"])),
                          youtubeApi := Some(YouTubeClient(Credentials(q["code"]))))
    ensures r.run.session.reddit == s.reddit && r.run.session.oauthState == s.oauthState
    ensures Inv(s) ==> Inv(r.run.session)
  {
    if "code" in q && "state" in q then
      if s.oauthState.None? then Handled(Raised(s), q)
      else if q["state"] != s.oauthState.value then Handled(Continue(s), q)
      else if !exchangeOk then Handled(Raised(s), q)
      else
        var credentials := Credentials(q["code"]);
        var loggedIn := s.(youtubeCredentials := Some(credentials), youtubeApi := Some(YouTubeClient(credentials)));
        var synced := SyncContent(loggedIn, now, vendor);
        if synced.Continue? then Handled(Rerun(synced.session), map[])
        else Handled(Raised(synced.session), map[])
    else Handled(Continue(s), q)
  }

  /** `handle_reddit_callback`. Any `code` parameter is taken up; there is
      no state check. `authorizeOk` says whether Reddit authorises the code.
      Every exception inside the handler, including one from the sync it
      runs, is caught and reported, and the pass continues. */
  function HandleRedditCallback(s: Session, q: Query, authorizeOk: bool, now: int, vendor: Vendor): (r: Handled)
    ensures r.run.Continue? || r.run.Rerun?
    ensures !("code" in q && authorizeOk) ==> r == Handled(Continue(s), q)
    ensures "code" in q && authorizeOk ==>
      && r.query == map[]
      && r.run.session.reddit == Some(RedditClient(q["code"]))
      && r.run.session.youtubeCredentials == s.youtubeCredentials
      && r.run.session.youtubeApi == s.youtubeApi
    ensures "code" in q && authorizeOk && Due(s, now) ==>
      && (r.run.Continue? <==> s.youtubeApi.Some? && FetchVideos(vendor.youtube).None?)
      && (r.run.Rerun? ==>
            && r.run.session.lastSyncTime == now
            && r.run.session.redditPosts == FetchPosts(vendor.reddit)
            && (s.youtubeApi.Some? ==> Some(r.run.session.youtubeVideos) == FetchVideos(vendor.youtube)))
      && (r.run.Continue? ==> r.run.session == s.(reddit := Some(RedditClient(q["code"]))))
    ensures "code" in q && authorizeOk && !Due(s, now) ==>
      r.run == Rerun(s.(reddit := Some(RedditClient(q["code"]))))
    ensures r.run.session.oauthState == s.oauthState
    ensures Inv(s) ==> Inv(r.run.session)
  {
    if "code" in q && authorizeOk then
      var loggedIn := s.(reddit := Some(RedditClient(q["code"])));
      var synced := SyncContent(loggedIn, now, vendor);
      if synced.Continue? then Handled(Rerun(synced.session), map[])
      else Handled(Continue(synced.session), map[])
    else Handled(Continue(s), q)
  }

  /** The top of every render pass: the YouTube callback, the Reddit
      callback, then the automatic sync. A rerun or an exception ends the
      pass early. */
  function StartPass(s: Session, q: Query, exchangeOk: bool, authorizeOk: bool, now: int, vendor: Vendor): (r: Handled)
    ensures r.run.session.oauthState == s.oauthState
    ensures Inv(s) ==> Inv(r.run.session)
    ensures !("code" in q) ==> r == Handled(SyncContent(s, now, vendor), q)
    ensures "code" in q && "state" in q && s.oauthState.None? ==> r == Handled(Raised(s), q)
    ensures YouTubeRedirectMatches(s, q) && !exchangeOk ==> r == Handled(Raised(s), q)
    ensures "code" in q && !YouTubeRedirectMatches(s, q) && !authorizeOk &&
            ("state" in q ==> s.oauthState.Some?) ==>
      r == Handled(SyncContent(s, now, vendor), q)
    ensures YouTubeRedirectMatches(s, q) && exchangeOk ==>
      && (r.run.Rerun? || r.run.Raised?)
      && r.run.session.youtubeCredentials == Some(Credentials(q["code"]))
      && r.run.session.reddit == s.reddit
      && r.query == map[]
    ensures "code" in q && !YouTubeRedirectMatches(s, q) && authorizeOk &&
            ("state" in q ==> s.oauthState.Some?) ==>
      && r.run.session.reddit == Some(RedditClient(q["code"]))
      && r.run.session.youtubeCredentials == s.youtubeCredentials
      && r.query == map[]
  {
    var y := HandleYouTubeCallback(s, q, exchangeOk, now, vendor);
    if !y.run.Continue? then y
    else
      var d := HandleRedditCallback(y.run.session, y.query, authorizeOk, now, vendor);
      if !d.run.Continue? then d
      else Handled(SyncContent(d.run.session, now, vendor), d.query)
  }

  /** Rendering the YouTube tab while logged out generates a login link and
      stores its anti-forgery token. */
  function ShowYouTubeLogin(s: Session, state: string): (t: Session)
    ensures s.youtubeCredentials.None? ==> t.oauthState == Some(state)
    ensures s.youtubeCredentials.Some? ==> t == s
    ensures t.(oauthState := s.oauthState) == s
  {
    if s.youtubeCredentials.None? then s.(oauthState := Some(state)) else s
  }

  /** The "Sync Now" button: zero the sync time so the gate opens, sync,
      rerun. */
  function SyncNow(s: Session, now: int, vendor: Vendor): (r: Run)
    ensures r.Rerun? || r.Raised?
    ensures SameLogins(s, r.session)
    ensures now >= s.syncInterval ==>
      (r.Raised? <==> s.youtubeApi.Some? && FetchVideos(vendor.youtube).None?)
    ensures now >= s.syncInterval && r.Rerun? ==>
      && r.session.lastSyncTime == now
      && (s.youtubeApi.Some? ==> Some(r.session.youtubeVideos) == FetchVideos(vendor.youtube))
      && (s.reddit.Some? ==> r.session.redditPosts == FetchPosts(vendor.reddit))
    ensures r.Raised? ==> r.session == s.(lastSyncTime := 0)
    ensures Inv(s) ==> Inv(r.session)
  {
    var synced := SyncContent(s.(lastSyncTime := 0), now, vendor);
    if synced.Continue? then Rerun(synced.session) else synced
  }

  /** The "Logout YouTube" button, shown only while a credential is held:
      forget the credential, the client and the videos. */
  function LogoutYouTube(s: Session, pressed: bool): (r: Run)
    ensures pressed && s.youtubeCredentials.Some? ==>
      && r.Rerun?
      && r.session.youtubeCredentials.None?
      && r.session.youtubeApi.None?
      && r.session.youtubeVideos == []
    ensures !(pressed && s.youtubeCredentials.Some?) ==> r == Continue(s)
    ensures r.session.reddit == s.reddit && r.session.redditPosts == s.redditPosts
    ensures r.session.lastSyncTime == s.lastSyncTime && r.session.syncInterval == s.syncInterval
    ensures r.session.oauthState == s.oauthState
    ensures Inv(s) ==> Inv(r.session)
  {
    if pressed && s.youtubeCredentials.Some? then
      Rerun(s.(youtubeCredentials := None, youtubeApi := None, youtubeVideos := []))
    else Continue(s)
  }

  /** The "Logout Reddit" button, shown only while a client is held: forget
      the client and the posts. */
  function LogoutReddit(s: Session, pressed: bool): (r: Run)
    ensures pressed && s.reddit.Some? ==>
      r.Rerun? && r.session.reddit.None? && r.session.redditPosts == []
    ensures !(pressed && s.reddit.Some?) ==> r == Continue(s)
    ensures r.session.youtubeCredentials == s.youtubeCredentials
    ensures r.session.youtubeApi == s.youtubeApi
    ensures r.session.youtubeVideos == s.youtubeVideos
    ensures r.session.lastSyncTime == s.lastSyncTime && r.session.syncInterval == s.syncInterval
    ensures r.session.oauthState == s.oauthState
    ensures Inv(s) ==> Inv(r.session)
  {
    if pressed && s.reddit.Some? then
      Rerun(s.(reddit := None, redditPosts := []))
    else Continue(s)
  }
}

=== FILE: wrappers.dfy ===
/** Option values, standing in for Python's `None` and for fields that a
    vendor payload may leave out. */
module Wrappers {

  datatype Option<+T> = None | Some(value: T)
}
